=== FILE: README.md ===
# getmotion landing page — verified model of its decision logic

The getmotion site is a marketing landing page for a video-production
service. Most of it is markup and library-driven animation. This project
models the plain decision and arithmetic rules inside four of its components
and proves properties about them:

- **Product showcase** (`src/components/PhoneShowcase.tsx`). It covers:
  - which of the three demo videos plays for a given raw scroll progress;
  - the switch handler, which changes the source (and restarts the video element) only when the selection changes;
  - the preload handler, whose set of preloaded videos only grows;
  - the rectangle `inset(...)` clip;
  - the write-in/write-out rule of the decorative curves;
  - the stroke-width clamp;
  - every keyframe table handed to the animation library, the title-reveal clips read as their numeric right inset.
- **3D alarm clock** (`src/components/AlarmClock3D.tsx`). It covers:
  - the six camera/scale presets chosen from the viewport size;
  - the predicate that decides which materials become dark metal;
  - the element-wise rewrite of material arrays;
  - the effect that recolours every mesh in place;
  - the `hasCalledReady` guard, which schedules the readiness callback at most once.
- **Waitlist form** (`src/components/WaitlistForm.tsx`). It covers:
  - `handleSubmit`, with its ordered early-return checks (role, email, configuration);
  - the `submitting` render;
  - the `success`/`error` outcome, which clears the fields only on success;
  - the REST endpoint, which strips at most one trailing `/` from the base URL.
- **Hero** (`src/components/Hero.tsx`). It covers:
  - the grid's columns and rows, computed from the aspect ratio, with guaranteed minimums for every viewport of positive width and height;
  - the viewBox that leaves 80 units around the grid;
  - the readiness conjunction and the effect that calls `onReady`, including the second call it makes on the samples page (`/samples`), where the parent passes a new callback on every render.

Numbers are exact `real`s. This idealises IEEE doubles. `Math.round(x)` is
modelled as `(x + 0.5).Floor`. The DOM, the video element, the 3D library and
the network call are inputs or recorded events:
- whether a video element is mounted is a parameter;
- the hue and saturation of a colour, which the 3D library reports, are fields of the colour;
- the outcome of the HTTP call is a `Response` parameter (`Ok`, `NotOk` or `Threw`);
- preload requests, source switches, restarts, requests sent and renders are logs kept in the class fields.

Files, one module each: `option.dfy` (Optional), `screen.dfy` (Screen: viewport
measurements and the stroke clamp that Hero and PhoneShowcase share),
`keyframes.dfy` (Keyframes), `showcase.dfy` (Showcase), `alarm_clock.dfy`
(Clock), `waitlist_form.dfy` (Waitlist), `hero.dfy` (Hero).

The animation library interpolates the keyframe tables, and its code is not
part of this model. `Keyframes.Value` is the clamped piecewise-linear reading
of a table that the library documents. It is a specification device, used to
state what the tables guarantee at every scroll position. It does not model
the library.

Notes on the code's exact behaviour:
- The video ranges are `v <= 0.2`, `0.2 < v <= 0.78` and `v > 0.78`.
- The 3D model schedules its readiness callback at most once. A callback that is absent on every run of the effect is never scheduled; one that appears on a later run is scheduled then.
- Hero calls `onReady` on every run of its effect that finds the section ready. The effect reruns whenever the callback's identity changes, so a parent that passes a new function on every render is called more than once (see "## Findings").
- No keyframe table has a zero-width segment. Every table is strictly increasing, and this is proved.

## Model

| member | source | states |
|---|---|---|
| Screen.IsPortrait | src/components/Hero.tsx:24 | portrait exactly when the aspect ratio is below 1, so a square viewport is not portrait |
| Screen.AspectRatio | src/components/Hero.tsx:17-26 | the ratio times the height gives the width; the ratio exceeds 1 exactly when the viewport is wider than tall |
| Screen.StrokeWidth | src/components/Hero.tsx:126 | stroke width always in [30, 60]; equals 4% of the width for widths 750..1500, 30 below, 60 above (the same rule is at src/components/PhoneShowcase.tsx:80) |
| Screen.StrokeWidthMonotone | src/components/Hero.tsx:125-126 | a wider window never gets a thinner stroke |
| Keyframes.ValueBeforeFirst | src/components/PhoneShowcase.tsx:112-116 | before a table's first keyframe the transform yields the first output |
| Keyframes.ValueAfterLast | src/components/PhoneShowcase.tsx:112-116 | after the last keyframe the transform yields the last output (clamping, no overshoot) |
| Keyframes.ValueAtKeyframe | src/components/PhoneShowcase.tsx:112-116 | at each keyframe the transform yields exactly the listed output |
| Keyframes.ValueWithin | src/components/PhoneShowcase.tsx:126-130 | a table whose outputs lie in [lo, hi] yields values in [lo, hi] at every scroll position |
| Showcase.SelectVideo | src/components/PhoneShowcase.tsx:373-389 | the video for progress v: VIDEO_3 iff v > 0.78, VIDEO_2 iff 0.2 < v <= 0.78, VIDEO_1 iff v <= 0.2 — exactly one for every v, overscroll included |
| Showcase.SelectVideoMonotone | src/components/PhoneShowcase.tsx:373-389 | scrolling further never selects an earlier video |
| Showcase.PreloadTargets | src/components/PhoneShowcase.tsx:352-364 | VIDEO_2 is wanted iff v > 0.1, VIDEO_3 iff v > 0.6; VIDEO_1 is never requested |
| Showcase.NewPreloads | src/components/PhoneShowcase.tsx:352-364 | the preload requests one event issues are exactly the wanted videos not yet preloaded, at most two |
| Showcase.SelectedIsPreloaded | src/components/PhoneShowcase.tsx:352-389 | the video selected for v is always among those preloaded by the time v is reached |
| Showcase.ShowcaseState.constructor | src/components/PhoneShowcase.tsx:44-45 | initially VIDEO_1 is shown and the preloaded set is {VIDEO_1}, with no side effects yet |
| Showcase.ShowcaseState.PreloadOnScroll | src/components/PhoneShowcase.tsx:349-367 | the preloaded set grows by exactly the wanted videos and never shrinks; each video is requested at most once; the shown video is untouched |
| Showcase.ShowcaseState.SwitchOnScroll | src/components/PhoneShowcase.tsx:370-398 | afterwards the shown video is SelectVideo(v); a switch is logged, and a restart issued when the element is mounted, iff the selection differed from the shown video, so a repeat with the same v changes nothing |
| Showcase.ShowcaseState.Show | src/components/PhoneShowcase.tsx:374-378 | sets the source, logs the (from, to) switch, and counts a load+play restart only when an element is mounted |
| Showcase.ShowcaseState.OnScroll | src/components/PhoneShowcase.tsx:349-398 | one change event delivered to both handlers leaves the selected video shown and that video preloaded, appends exactly the new preload requests to the request log, and logs a switch (and a restart when mounted) only if the selection changed |
| Showcase.RectangleInsets | src/components/PhoneShowcase.tsx:242-249 | the clip leaves a rectangle w% wide anchored at the left edge (left inset 0, right 100 - w) and h% high centred vertically (top = bottom = (100 - h)/2) |
| Showcase.RectangleInsetsWithin | src/components/PhoneShowcase.tsx:229-249 | for w in [0, 100] and h in [0.5, 100] the right inset is in [0, 100] and the top/bottom inset in [0, 49.75] |
| Showcase.RectangleClipWithin | src/components/PhoneShowcase.tsx:229-249 | at every scroll position the clip computed from the width and height tables has those bounds |
| Showcase.PathLength | src/components/PhoneShowcase.tsx:482-487 | the drawn length is the write-out value once that is below 1, and the write-in value while the write-out value is still 1 (or more); it stays in [0, 1] when both do |
| Showcase.WriteOutFalls | src/components/PhoneShowcase.tsx:303-307 | a write-out table is exactly 1 up to its first keyframe and strictly below 1 after it |
| Showcase.CurvePathLength | src/components/PhoneShowcase.tsx:298-341 | each curve is written in until its write-out range begins and written out from then on; its length is always in [0, 1] (also the selectors at :517-520 and :550-553) |
| Showcase.TablesWellFormed | src/components/PhoneShowcase.tsx:112-346 | every table has as many outputs as inputs and strictly increasing inputs; rotate and scale share 7 keyframes; rotate ends at 720 (a whole number of turns); scale starts and ends at 1 |
| Showcase.OpacityValuesWithin | src/components/PhoneShowcase.tsx:141-346 | every opacity lies in [0, 1] at every scroll position |
| Showcase.OffsetValuesWithin | src/components/PhoneShowcase.tsx:146-285 | every title offset lies in [0, 20] px at every scroll position |
| Showcase.CurveValuesWithin | src/components/PhoneShowcase.tsx:126-341 | every write-in/write-out value lies in [0, 1] and the circle radius in [0, 150] at every scroll position |
| Showcase.TitleRevealed | src/components/PhoneShowcase.tsx:744-802 | each title's clip has its right inset in [0, 100] at every scroll position; the title is fully hidden up to its first keyframe and fully shown from its last |
| Showcase.PhoneUprightAtEnds | src/components/PhoneShowcase.tsx:109-122 | before the section the phone is at rotation 0 and scale 1; from 85% on it is at 720 degrees and scale 1 |
| Clock.Responsive | src/components/AlarmClock3D.tsx:15-70 | one of the six presets: portrait small iff taller than wide and width < 400, portrait medium iff 400 <= width < 600, portrait large iff width >= 600; landscape small iff not taller than wide and width < 900, medium iff 900 <= width < 1200, large iff width >= 1200; a portrait preset iff height > width (so a square viewport is landscape); camera x is 0, camera y is 2 in portrait and 1.5 in landscape |
| Clock.PresetsDistinct | src/components/AlarmClock3D.tsx:8-70 | the six presets are pairwise different, and the settings held before the first measurement are none of them |
| Clock.ResponsiveMonotone | src/components/AlarmClock3D.tsx:21-70 | within one orientation, a wider viewport has scale and camera z non-decreasing, fov and model y non-increasing |
| Clock.BreakpointsBelongAbove | src/components/AlarmClock3D.tsx:19-54 | a width equal to a breakpoint (400, 600, 900, 1200) gets the next tier's preset; a square viewport gets a landscape preset |
| Clock.LowerChar | src/components/AlarmClock3D.tsx:103 | upper-case ASCII letters map to their lower-case letter, everything else is unchanged |
| Clock.ToLower | src/components/AlarmClock3D.tsx:103 | the lower-cased name has the same length and lower-cases every character in place |
| Clock.ShouldRecolor | src/components/AlarmClock3D.tsx:103-120 | a material is recoloured iff its metalness exceeds 0.3, or its colour has hue in (0.02, 0.2) and saturation above 0.3, or gold, metal or scratched occurs at some position of its lower-cased name; metalness or warm colour alone suffices |
| Clock.RecolorByName | src/components/AlarmClock3D.tsx:103-106 | for every name, keyword and position: gold, metal or scratched occurring at that position of the name in any mix of upper and lower case makes the material recoloured, whatever its colour and metalness |
| Clock.RecolorRimGold | src/components/AlarmClock3D.tsx:103-106 | example: "Rim_GOLD" is recoloured by its upper-case keyword |
| Clock.KeepClockFace | src/components/AlarmClock3D.tsx:103-120 | a white, barely metallic material with an unrelated name is not recoloured |
| Clock.Process | src/components/AlarmClock3D.tsx:99-127 | a material matching by name (gold/metal/scratched), warm colour (hue in (0.02, 0.2), saturation > 0.3) or metalness > 0.3 becomes a copy with the same name and kind, colour 0x1a1a1a, metalness 0.85 and roughness 0.25 where it has them; any other material is returned unchanged |
| Clock.ProcessIdempotent | src/components/AlarmClock3D.tsx:118-126 | processing a processed material changes nothing |
| Clock.ProcessAll | src/components/AlarmClock3D.tsx:130-131 | an array of materials keeps its length and order, each element processed |
| Clock.ProcessSlot | src/components/AlarmClock3D.tsx:130-134 | a slot keeps its kind (none, single, array); a single material is processed; an array keeps its length and each element is processed in place |
| Clock.ProcessScene | src/components/AlarmClock3D.tsx:97-136 | processing a scene keeps its number of meshes and processes each mesh's slot at its own position |
| Clock.ProcessSlotIdempotent | src/components/AlarmClock3D.tsx:130-134 | reprocessing a mesh's material slot (none, single or array) changes nothing |
| Clock.ProcessSceneIdempotent | src/components/AlarmClock3D.tsx:96-148 | re-running the recolouring effect on a processed scene changes nothing observable |
| Clock.ClockModel.constructor | src/components/AlarmClock3D.tsx:88-89 | a fresh model holds the loaded scene and has not signalled readiness |
| Clock.ClockModel.RunEffect | src/components/AlarmClock3D.tsx:96-148 | every mesh slot is replaced by its processed form in place; the ready callback is scheduled iff one is given and none was scheduled before, so never more than once in the model's life |
| Waitlist.Endpoint | src/components/WaitlistForm.tsx:49 | the endpoint is the base URL minus at most one trailing '/', followed by '/rest/v1/waitlist_entries' |
| Waitlist.EndpointIgnoresTrailingSlash | src/components/WaitlistForm.tsx:49 | a base URL with or without a single trailing slash yields the same endpoint |
| Waitlist.EndpointStripsAtMostOne | src/components/WaitlistForm.tsx:49 | of two trailing slashes only one is removed |
| Waitlist.WaitlistForm.constructor | src/components/WaitlistForm.tsx:12-15 | the form starts idle with empty role, email and message |
| Waitlist.WaitlistForm.ChooseRole | src/components/WaitlistForm.tsx:90 | choosing a role sets it |
| Waitlist.WaitlistForm.TypeEmail | src/components/WaitlistForm.tsx:109 | typing sets the email |
| Waitlist.WaitlistForm.HandleSubmit | src/components/WaitlistForm.tsx:20-75 | the checks run in order: empty role, then empty email, then unset URL or key. Each failing check gives error with its own message and sends nothing. Otherwise the form renders submitting with a cleared message and posts exactly one request. An OK response gives success, the thanks message and cleared fields. A non-OK response or an exception gives error with the generic message and keeps the fields |
| Hero.Round | src/components/Hero.tsx:40 | the rounded value is within half a unit of its argument (halves rounded up) |
| Hero.GridDimensions | src/components/Hero.tsx:36-54 | for ratio > 1, cols in [10, 20] and 4 <= rows <= cols; for ratio <= 1, 4 <= cols <= rows and rows >= 8 |
| Hero.LandscapeBounds | src/components/Hero.tsx:39-45 | with the ratio capped at 2.5 and scaled by 8, the raw column count is in [8, 20] and the raw row count never exceeds it |
| Hero.PortraitBounds | src/components/Hero.tsx:46-53 | the raw row count is at least 8 and the raw column count never exceeds it |
| Hero.NarrowViewportRows | src/components/Hero.tsx:46-53 | a portrait viewport n/8 times narrower than square (n >= 8) gets exactly n rows, so the row count has no upper bound as the width shrinks |
| Hero.GridExamples | src/components/Hero.tsx:8-54 | a square viewport gets 8 x 8; the initial 1440 x 900 viewport (ratio 1.6) gets 13 x 8 |
| Hero.GridViewBox | src/components/Hero.tsx:103-106 | the grid spans cols*100 by rows*100 from the origin and the viewBox leaves exactly 80 around it on every side (used at line 274) |
| Hero.ReadyCalls | src/components/Hero.tsx:97-101 | the effect as written calls the callback exactly once per ready render with a callback whose dependencies (readiness, callback identity) differ from the previous render's |
| Hero.ReadyStaysReady | src/components/Hero.tsx:94 | readiness is the conjunction of two flags that only rise, so once ready the section stays ready |
| Hero.ReadyNotifiedOnce | src/components/Hero.tsx:91-101 | with rising flags, onReady is called at most once more than the number of new callbacks the parent hands over (so at most once with a stable callback), and at least once when the trace ends ready with a callback |
| Hero.NoCallWhileNotReady | src/components/Hero.tsx:97-101 | while page and model are not both ready, onReady is never called |
| Hero.SamplesPageCalledTwice | src/components/Hero.tsx:97-101 | on the samples page's (`/samples`) trace (a new arrow function on every parent render) the effect as written calls onReady twice; with a once-only guard, once |
| Hero.GuardedNotifiedOnce | src/components/Hero.tsx:97-101 | with a once-only guard the callback is called at most once on every trace, whatever callbacks the parent passes, and exactly once iff some render is ready with a callback |

## Left out

- Interpolation and spring smoothing (`useTransform`, `useSpring`, `useScroll`) are done by the motion library. Only the tables are modelled; `Keyframes.Value` is a specification device.
- The video element's work is left out: `load()`, `play()`, `pause()`, mute, seek and the `timeupdate` progress bar with its NaN fallback. This is I/O and floating point. A switch is modelled as a logged event and a restart counter.
- Preloading creates a detached `<video>` element. That element is modelled only as an entry in the `preloadRequests` log.
- React delivers state updates on the next render, and the handlers are re-subscribed after it. The model lets every change event see the latest state. Two events arriving before a re-render could make the source issue a duplicate preload or switch, and the model does not capture that.
- The per-frame intro spin, floating and ringing animation (`useFrame`) is time-, trigonometry- and float-driven. It is not modelled.
- `scene.traverse` belongs to the 3D library. The scene is modelled as the sequence of its meshes' material slots in traversal order. Non-mesh children are not listed.
- `Color.getHSL` belongs to the 3D library. Each colour carries the hue and saturation the library reports for it, and 0x1a1a1a is given hue 0 and saturation 0, as for any grey.
- A colour property that is not a library `Color` instance is not modelled.
- `mat.clone()` creates a new object. The model compares materials by value, so object identity is not captured.
- `toLowerCase` is modelled for ASCII letters only. Unicode case mapping is not modelled.
- The 3D model calls its readiness callback after two animation frames. That delay is not modelled: the callback is recorded as scheduled. Hero calls `onReady` directly; its page-ready flag is set after two animation frames, and that delay is folded into the flag.
- The page-ready signal waits for fonts and the window load event. It is modelled as a flag that only rises.
- The browser's own form validation is not modelled. The `required` role select and email input and the `type="email"` input keep the submit event from reaching `handleSubmit` when they fail, so `HandleSubmit` also covers inputs the page never submits. Malformed email addresses are not rejected by the model.
- The select, the input and the button are disabled while a submission is in flight, so no second submit can interleave with one in progress. `HandleSubmit` is modelled as one atomic step, which relies on that.
- The HTTP call is modelled as an abstract response. JSON serialisation, the `Content-Type` and `Prefer` headers, and the response text are not modelled. The error text cannot be observed anyway: every failure shows the same message.
- Environment variables are strings, and an empty string stands for an unset variable. Both are falsy in the source's check.
- The waitlist modal passes an `onSuccess` callback to the form. The form's props do not declare it and the form never calls it, so no close-on-success is modelled.
- The SVG curve paths are presentation strings computed from floating-point fractions of the screen size (such as `-w * 0.1` and `h * 0.32`). They are not modelled. The `circle(r% at 50% 55%)` clip string is a template around the radius and is not modelled either. The circle radius table is modelled.
- The waitlist modal, the motion button, the steps section, the loading screen, the footer, the CTA section, the legal and samples pages and the router are not part of this model.
- IEEE floating-point rounding is not modelled; all arithmetic is exact.
- Screen.AspectRatio: requires a positive height, and the model covers only viewports of positive width and height. Exact reals have no Infinity or NaN. In the source, a zero height gives an infinite ratio, and the landscape branch then yields a 20 x 4 grid.
- Hero.GridDimensions: requires a positive aspect ratio, which excludes zero-width viewports (a zero-width frame reports `innerWidth` 0). In the source, a ratio of 0 gives `rows = Math.round(8 / 0)`, which is Infinity. Then `cols = Math.round(Infinity * 0)` is NaN, and `Math.max(NaN, 4)` stays NaN. The grid's `Array.from({ length: gridRows + 1 })` at src/components/Hero.tsx:316 then throws, so Hero's render fails. The model states no grid and no minimums there.

## Findings

| source | as written | input that shows it | evidently intended | confidence | as-written member | corrected member |
|---|---|---|---|---|---|---|
| src/components/Hero.tsx:97-101 | the effect calls `onReady` on every run that finds the section ready, and it reruns whenever the callback's identity changes | the samples page (`/samples`, src/pages/SamplesPage.tsx:23) passes `() => setIsLoading(false)`, a new function on every render: once the section is ready the call re-renders the page, Hero gets a new callback, and the effect calls it again (two calls) | notify the parent once, when everything is loaded, as the 3D model's `hasCalledReady` guard does | not executed; the second call sets the same loading flag again, so it is harmless on that page | Hero.SamplesPageCalledTwice | Hero.GuardedNotifiedOnce |

=== FILE: alarm_clock.dfy ===
/**
 * The 3D alarm clock of the hero section: the camera/scale preset chosen for
 * the viewport, the recolouring of the model's gold and metal materials to a
 * dark metal, and the guard that signals readiness at most once.
 */
module Clock {
  import opened Optional
  import Screen

  // ---------------------------------------------------------------------
  // Responsive presets
  // ---------------------------------------------------------------------

  /** Model scale, camera position (x, y, z), field of view and vertical model offset. */
  datatype Settings = Settings(scale: real, cameraX: real, cameraY: real, cameraZ: real, fov: real, modelY: real)

  /** The settings in force before the first viewport measurement. */
  const InitialSettings := Settings(45.0, 0.0, 22.0, 3.0, 30.0, -4.0)

  const PortraitSmall := Settings(14.0, 0.0, 2.0, 12.0, 35.0, -1.2)
  const PortraitMedium := Settings(14.0, 0.0, 2.0, 14.0, 32.0, -1.5)
  const PortraitLarge := Settings(18.0, 0.0, 2.0, 15.0, 30.0, -1.8)
  const LandscapeSmall := Settings(11.0, 0.0, 1.5, 10.0, 35.0, -1.0)
  const LandscapeMedium := Settings(16.0, 0.0, 1.5, 12.0, 32.0, -1.5)
  const LandscapeLarge := Settings(20.0, 0.0, 1.5, 14.0, 30.0, -2.0)

  const PortraitPresets := {PortraitSmall, PortraitMedium, PortraitLarge}
  const LandscapePresets := {LandscapeSmall, LandscapeMedium, LandscapeLarge}

  /**
   * The preset for a viewport. Portrait viewports (strictly taller than
   * wide) use the portrait presets, all others the landscape ones; the
   * camera is always centred horizontally.
   */
  function Responsive(width: real, height: real): (s: Settings)
    ensures s in PortraitPresets + LandscapePresets
    ensures s in PortraitPresets <==> height > width
    ensures s.cameraX == 0.0
    ensures s.cameraY == if height > width then 2.0 else 1.5
    ensures s == PortraitSmall <==> height > width && width < 400.0
    ensures s == PortraitMedium <==> height > width && 400.0 <= width < 600.0
    ensures s == PortraitLarge <==> height > width && width >= 600.0
    ensures s == LandscapeSmall <==> height <= width && width < 900.0
    ensures s == LandscapeMedium <==> height <= width && 900.0 <= width < 1200.0
    ensures s == LandscapeLarge <==> height <= width && width >= 1200.0
  {
    if Screen.IsPortrait(Screen.Dimensions(width, height)) then
      if width < 400.0 then PortraitSmall
      else if width < 600.0 then PortraitMedium
      else PortraitLarge
    else
      if width < 900.0 then LandscapeSmall
      else if width < 1200.0 then LandscapeMedium
      else LandscapeLarge
  }

  /**
   * The six presets are pairwise different, so the lookup really chooses one
   * of six; the settings in force before the first measurement are none of
   * them, and the first measurement replaces them.
   */
  lemma PresetsDistinct()
    ensures |PortraitPresets + LandscapePresets| == 6
    ensures InitialSettings !in PortraitPresets + LandscapePresets
  {
  }

  /**
   * Within one orientation a wider viewport never gets a smaller model, a
   * wider field of view, a closer camera or a higher model.
   */
  lemma ResponsiveMonotone(w1: real, h1: real, w2: real, h2: real)
    requires w1 <= w2
    requires (h1 > w1) == (h2 > w2)
    ensures Responsive(w1, h1).scale <= Responsive(w2, h2).scale
    ensures Responsive(w1, h1).fov >= Responsive(w2, h2).fov
    ensures Responsive(w1, h1).cameraZ <= Responsive(w2, h2).cameraZ
    ensures Responsive(w1, h1).modelY >= Responsive(w2, h2).modelY
  {
  }

  /**
   * A width equal to a breakpoint belongs to the tier above it, and a square
   * viewport is landscape.
   */
  lemma BreakpointsBelongAbove(h: real)
    ensures h > 400.0 ==> Responsive(400.0, h) == PortraitMedium
    ensures h > 600.0 ==> Responsive(600.0, h) == PortraitLarge
    ensures h <= 900.0 ==> Responsive(900.0, h) == LandscapeMedium
    ensures h <= 1200.0 ==> Responsive(1200.0, h) == LandscapeLarge
    ensures Responsive(h, h) in LandscapePresets
  {
  }

  // ---------------------------------------------------------------------
  // Material recolouring
  // ---------------------------------------------------------------------

  /**
   * A colour: its 24-bit RGB value, and the hue and saturation (both in
   * [0, 1]) that the 3D library reports for it.
   */
  datatype Color = Color(rgb: int, hue: real, saturation: real)

  /** 0x1a1a1a, a grey: no hue and no saturation. */
  const DarkMetal := Color(0x1a1a1a, 0.0, 0.0)
  const DarkMetalness := 0.85
  const DarkRoughness := 0.25

  /**
   * A material: its name and whichever of colour, metalness and roughness
   * its kind has.
   */
  datatype Material = Material(name: string, color: Option<Color>, metalness: Option<real>, roughness: Option<real>)

  /** Lower-casing of one character (ASCII letters only). */
  function LowerChar(c: char): (r: char)
    ensures 'A' <= c <= 'Z' ==> 'a' <= r <= 'z' && r as int - c as int == 'a' as int - 'A' as int
    ensures !('A' <= c <= 'Z') ==> r == c
  {
    if 'A' <= c <= 'Z' then (c as int - 'A' as int + 'a' as int) as char else c
  }

  function ToLower(s: string): (r: string)
    ensures |r| == |s|
    ensures forall i :: 0 <= i < |s| ==> r[i] == LowerChar(s[i])
  {
    if s == [] then [] else [LowerChar(s[0])] + ToLower(s[1..])
  }

  /** `part` occurs in `s` starting at index i. */
  predicate OccursAt(s: string, part: string, i: int) {
    0 <= i <= |s| - |part| && s[i..i + |part|] == part
  }

  /** `part` occurs in `s` as a contiguous substring. */
  predicate Contains(s: string, part: string) {
    exists i | 0 <= i <= |s| :: OccursAt(s, part, i)
  }

  /** The name fragments that mark a gold or metal part. */
  const MetalKeywords := {"gold", "metal", "scratched"}

  /** Some keyword occurs at some position of `n`. */
  ghost predicate KeywordSomewhere(n: string) {
    exists k, i :: k in MetalKeywords && OccursAt(n, k, i)
  }

  predicate HasMetalName(m: Material) {
    var n := ToLower(m.name);
    Contains(n, "gold") || Contains(n, "metal") || Contains(n, "scratched")
  }

  predicate HasWarmColor(m: Material) {
    m.color.Some? && 0.02 < m.color.value.hue < 0.2 && m.color.value.saturation > 0.3
  }

  predicate IsMetallic(m: Material) {
    m.metalness.Some? && m.metalness.value > 0.3
  }

  /**
   * A material is recoloured when its name, its colour or its metalness says
   * gold or metal: any one of the three suffices, and a material that is
   * left alone has none of the keywords at any position of its lower-cased
   * name.
   */
  predicate ShouldRecolor(m: Material): (r: bool)
    ensures IsMetallic(m) ==> r
    ensures HasWarmColor(m) ==> r
    ensures r <==> (IsMetallic(m) || HasWarmColor(m)
      || KeywordSomewhere(ToLower(m.name)))
  {
    KeywordAnywhere(ToLower(m.name));
    HasMetalName(m) || HasWarmColor(m) || IsMetallic(m)
  }

  lemma KeywordAnywhere(n: string)
    ensures (Contains(n, "gold") || Contains(n, "metal") || Contains(n, "scratched")) <==> KeywordSomewhere(n)
  {
    if Contains(n, "gold") || Contains(n, "metal") || Contains(n, "scratched") {
      var k := if Contains(n, "gold") then "gold" else if Contains(n, "metal") then "metal" else "scratched";
      var i :| 0 <= i <= |n| && OccursAt(n, k, i);
      assert k in MetalKeywords;
    }
    if exists k, i :: k in MetalKeywords && OccursAt(n, k, i) {
      var k, i :| k in MetalKeywords && OccursAt(n, k, i);
      assert Contains(n, k);
    }
  }

  /**
   * One material after processing: a matching material becomes a copy that
   * keeps its name and kind but is dark, very metallic and fairly smooth;
   * any other material is kept as it is.
   */
  function Process(m: Material): (r: Material)
    ensures !ShouldRecolor(m) ==> r == m
    ensures ShouldRecolor(m) ==>
      && r.name == m.name
      && (r.color.Some? <==> m.color.Some?) && (r.color.Some? ==> r.color.value == DarkMetal)
      && (r.metalness.Some? <==> m.metalness.Some?) && (r.metalness.Some? ==> r.metalness.value == DarkMetalness)
      && (r.roughness.Some? <==> m.roughness.Some?) && (r.roughness.Some? ==> r.roughness.value == DarkRoughness)
  {
    if ShouldRecolor(m) then
      Material(
        m.name,
        if m.color.Some? then Some(DarkMetal) else None,
        if m.metalness.Some? then Some(DarkMetalness) else None,
        if m.roughness.Some? then Some(DarkRoughness) else None)
    else
      m
  }

  /**
   * Processing twice is processing once. A recoloured material either still
   * matches (by name, or because 0.85 > 0.3) and is given the same values
   * again, or no longer matches (its dark grey is not warm) and is kept.
   */
  lemma ProcessIdempotent(m: Material)
    ensures Process(Process(m)) == Process(m)
  {
  }

  /** `part` occurs in `s` at index i when letter case is ignored. */
  predicate OccursIgnoringCaseAt(s: string, part: string, i: int) {
    0 <= i <= |s| - |part| && forall k :: 0 <= k < |part| ==> LowerChar(s[i + k]) == part[k]
  }

  /**
   * Name matching ignores letter case and looks anywhere in the name: a
   * material in whose name a keyword occurs at any position, in any mix of
   * upper and lower case, is recoloured, whatever its colour and metalness.
   */
  lemma RecolorByName(name: string, k: string, i: int, c: Option<Color>, mt: Option<real>, ro: Option<real>)
    requires k in MetalKeywords && OccursIgnoringCaseAt(name, k, i)
    ensures ShouldRecolor(Material(name, c, mt, ro))
  {
    var n := ToLower(name);
    assert n[i..i + |k|] == k by {
      forall j | 0 <= j < |k| ensures n[i..i + |k|][j] == k[j] {
        assert n[i + j] == LowerChar(name[i + j]);
      }
    }
    assert OccursAt(n, k, i);
  }

  /** For instance, "Rim_GOLD" is recoloured by the upper-case keyword at its end. */
  lemma RecolorRimGold()
    ensures ShouldRecolor(Material("Rim_GOLD", None, None, None))
  {
    var s := "Rim_GOLD";
    assert OccursIgnoringCaseAt(s, "gold", 4) by {
      assert LowerChar(s[4]) == 'g' && LowerChar(s[5]) == 'o' && LowerChar(s[6]) == 'l' && LowerChar(s[7]) == 'd';
    }
    RecolorByName(s, "gold", 4, None, None, None);
  }

  /** A white, barely metallic clock face is left alone. */
  lemma KeepClockFace()
    ensures !ShouldRecolor(Material("face", Some(Color(0xffffff, 0.0, 0.0)), Some(0.1), Some(0.9)))
  {
    var f := ToLower("face");
    assert f == "face";
  }

  /** A mesh's material slot: none, one material, or an array of them. */
  datatype Slot = NoMaterial | Single(material: Material) | Many(materials: seq<Material>)

  /** An array of materials processed element by element: same length, same order. */
  function ProcessAll(ms: seq<Material>): (rs: seq<Material>)
    ensures |rs| == |ms|
    ensures forall i :: 0 <= i < |ms| ==> rs[i] == Process(ms[i])
  {
    if ms == [] then [] else [Process(ms[0])] + ProcessAll(ms[1..])
  }

  /** A slot keeps its kind; each of its materials is processed, in order. */
  function ProcessSlot(s: Slot): (r: Slot)
    ensures r.NoMaterial? == s.NoMaterial? && r.Single? == s.Single? && r.Many? == s.Many?
    ensures s.Single? ==> r.material == Process(s.material)
    ensures s.Many? ==> (|r.materials| == |s.materials|
      && forall i :: 0 <= i < |s.materials| ==> r.materials[i] == Process(s.materials[i]))
  {
    match s
    case NoMaterial => NoMaterial
    case Single(m) => Single(Process(m))
    case Many(ms) => Many(ProcessAll(ms))
  }

  /** The material slots of a scene's meshes, in traversal order, each processed. */
  function ProcessScene(slots: seq<Slot>): (r: seq<Slot>)
    ensures |r| == |slots|
    ensures forall i :: 0 <= i < |slots| ==> r[i] == ProcessSlot(slots[i])
  {
    seq(|slots|, i requires 0 <= i < |slots| => ProcessSlot(slots[i]))
  }

  lemma ProcessSlotIdempotent(s: Slot)
    ensures ProcessSlot(ProcessSlot(s)) == ProcessSlot(s)
  {
    match s
    case NoMaterial =>
    case Single(m) => ProcessIdempotent(m);
    case Many(ms) =>
      var once := ProcessAll(ms);
      forall i | 0 <= i < |ms| ensures ProcessAll(once)[i] == once[i] {
        ProcessIdempotent(ms[i]);
      }
  }

  /**
   * Re-running the recolouring effect on an already processed scene changes
   * nothing observable.
   */
  lemma ProcessSceneIdempotent(slots: seq<Slot>)
    ensures ProcessScene(ProcessScene(slots)) == ProcessScene(slots)
  {
    forall i | 0 <= i < |slots|
      ensures ProcessScene(ProcessScene(slots))[i] == ProcessScene(slots)[i]
    {
      ProcessSlotIdempotent(slots[i]);
    }
  }

  /**
   * A loaded clock model: the material slots of its meshes, the flag that
   * remembers whether readiness has been signalled, and the number of
   * readiness callbacks scheduled so far.
   */
  class ClockModel {
    var slots: seq<Slot>
    var hasCalledReady: bool
    var readyScheduled: nat

    /** The callback is scheduled exactly once the flag is set, never more. */
    ghost predicate Valid()
      reads this
    {
      readyScheduled == if hasCalledReady then 1 else 0
    }

    constructor (scene: seq<Slot>)
      ensures Valid()
      ensures slots == scene && !hasCalledReady && readyScheduled == 0
    {
      slots := scene;
      hasCalledReady := false;
      readyScheduled := 0;
    }

    /**
     * The effect that runs when the scene or the callback changes: recolour
     * every mesh in place, then schedule the readiness callback if there is
     * one and it has not been scheduled before.
     */
    method RunEffect(hasOnReady: bool)
      requires Valid()
      modifies this
      ensures Valid()
      ensures slots == ProcessScene(old(slots))
      ensures hasCalledReady == (old(hasCalledReady) || hasOnReady)
      ensures readyScheduled == old(readyScheduled) + (if !old(hasCalledReady) && hasOnReady then 1 else 0)
      ensures readyScheduled <= 1
    {
      var i := 0;
      while i < |slots|
        invariant 0 <= i <= |slots| == |old(slots)|
        invariant forall k :: 0 <= k < i ==> slots[k] == ProcessSlot(old(slots)[k])
        invariant forall k :: i <= k < |slots| ==> slots[k] == old(slots)[k]
        invariant hasCalledReady == old(hasCalledReady) && readyScheduled == old(readyScheduled)
      {
        slots := slots[i := ProcessSlot(slots[i])];
        i := i + 1;
      }
      if !hasCalledReady && hasOnReady {
        hasCalledReady := true;
        readyScheduled := readyScheduled + 1;
      }
    }
  }
}

=== FILE: hero.dfy ===
/**
 * The hero section: the background grid sized from the viewport's aspect
 * ratio, the viewBox around it, and the readiness notification that waits
 * for both the page and the 3D model.
 */
module Hero {
  import opened Optional
  import Screen

  // ---------------------------------------------------------------------
  // Grid sizing
  // ---------------------------------------------------------------------

  /** Nearest integer, halves rounded up (exact arithmetic). */
  function Round(x: real): (n: int)
    ensures x - 0.5 < n as real <= x + 0.5
  {
    (x + 0.5).Floor
  }

  lemma RoundMonotone(x: real, y: real)
    requires x <= y
    ensures Round(x) <= Round(y)
  {
  }

  lemma RoundInt(n: int)
    ensures Round(n as real) == n
  {
  }

  function MaxInt(a: int, b: int): int { if a >= b then a else b }

  datatype Grid = Grid(cols: int, rows: int)

  const BaseCells := 8

  /**
   * Grid size for an aspect ratio. A landscape grid has 8 cells per unit of
   * aspect ratio across (the ratio capped at 2.5), at least 10 columns and at
   * least 4 rows; a portrait or square grid has 8 cells per unit of inverse
   * ratio down, at least 4 columns and at least 8 rows. Either way the grid
   * keeps the viewport's orientation.
   */
  function GridDimensions(aspectRatio: real): (g: Grid)
    requires aspectRatio > 0.0
    ensures aspectRatio > 1.0 ==> 10 <= g.cols <= 20 && 4 <= g.rows <= g.cols
    ensures aspectRatio <= 1.0 ==> 4 <= g.cols <= g.rows && 8 <= g.rows
  {
    if aspectRatio > 1.0 then
      var cols := Round(BaseCells as real * Screen.Min(aspectRatio, 2.5));
      var rows := Round(cols as real / aspectRatio);
      LandscapeBounds(aspectRatio);
      Grid(MaxInt(cols, 10), MaxInt(rows, 4))
    else
      var rows := Round(BaseCells as real / aspectRatio);
      var cols := Round(rows as real * aspectRatio);
      PortraitBounds(aspectRatio);
      Grid(MaxInt(cols, 4), MaxInt(rows, 8))
  }

  lemma LandscapeBounds(r: real)
    requires r > 1.0
    ensures 8 <= Round(8.0 * Screen.Min(r, 2.5)) <= 20
    ensures Round(Round(8.0 * Screen.Min(r, 2.5)) as real / r) <= Round(8.0 * Screen.Min(r, 2.5))
  {
    var c := Round(8.0 * Screen.Min(r, 2.5));
    RoundMonotone(8.0, 8.0 * Screen.Min(r, 2.5));
    RoundInt(8);
    RoundMonotone(8.0 * Screen.Min(r, 2.5), 20.0);
    RoundInt(20);
    ShrinkByRatio(c as real, r);
    RoundMonotone(c as real / r, c as real);
    RoundInt(c);
  }

  lemma ShrinkByRatio(c: real, r: real)
    requires c >= 0.0 && r >= 1.0
    ensures c / r <= c
  {
  }

  lemma PortraitBounds(r: real)
    requires 0.0 < r <= 1.0
    ensures Round(8.0 / r) >= 8
    ensures Round(Round(8.0 / r) as real * r) <= Round(8.0 / r)
  {
    var rows := Round(8.0 / r);
    assert 8.0 / r >= 8.0 by {
      assert (8.0 / r) * r == 8.0;
    }
    RoundMonotone(8.0, 8.0 / r);
    RoundInt(8);
    assert rows as real * r <= rows as real;
    RoundMonotone(rows as real * r, rows as real);
    RoundInt(rows);
  }

  /**
   * A narrow portrait viewport gets as many rows as it is times narrower
   * than the base: the row count has no upper bound as the width shrinks
   * towards zero.
   */
  lemma NarrowViewportRows(n: nat)
    requires n >= 8
    ensures GridDimensions(8.0 / n as real).rows == n
  {
    var r := 8.0 / n as real;
    assert 8.0 / r == n as real;
    RoundInt(n);
  }

  /** A square viewport gets an 8 by 8 grid; the initial 1440 x 900 viewport a 13 by 8 grid. */
  lemma GridExamples()
    ensures GridDimensions(1.0) == Grid(8, 8)
    ensures GridDimensions(Screen.AspectRatio(Screen.Initial)) == Grid(13, 8)
  {
    RoundInt(8);
    assert Screen.AspectRatio(Screen.Initial) == 1.6;
    assert Round(8.0 * 1.6) == 13;
    assert Round(13.0 / 1.6) == 8;
  }

  // ---------------------------------------------------------------------
  // Grid drawing area
  // ---------------------------------------------------------------------

  const CellSize := 100
  const Overflow := 80

  /** An SVG viewBox: origin and extent. */
  datatype ViewBox = ViewBox(minX: int, minY: int, width: int, height: int)

  /**
   * The viewBox of the grid: the grid spans cols*100 by rows*100 from the
   * origin, and the box leaves exactly 80 units around it on every side.
   */
  function GridViewBox(g: Grid): (v: ViewBox)
    ensures 0 - v.minX == Overflow && 0 - v.minY == Overflow
    ensures (v.minX + v.width) - g.cols * CellSize == Overflow
    ensures (v.minY + v.height) - g.rows * CellSize == Overflow
  {
    var gridWidth := g.cols * CellSize;
    var gridHeight := g.rows * CellSize;
    ViewBox(-Overflow, -Overflow, gridWidth + Overflow * 2, gridHeight + Overflow * 2)
  }

  // ---------------------------------------------------------------------
  // Readiness
  // ---------------------------------------------------------------------

  /** The section animates only once both the page and the model are ready. */
  predicate IsReady(pageReady: bool, modelReady: bool) {
    pageReady && modelReady
  }

  /** The state seen by one render: the two flags and the identity of the callback, if any. */
  datatype Render = Render(pageReady: bool, modelReady: bool, onReady: Option<nat>)

  predicate Ready(r: Render) {
    IsReady(r.pageReady, r.modelReady)
  }

  /** The dependencies of the notifying effect. */
  datatype Deps = Deps(ready: bool, onReady: Option<nat>)

  function DepsOf(r: Render): Deps {
    Deps(Ready(r), r.onReady)
  }

  /** The dependencies the effect compares render i against: the previous render's, or `previous` for the first. */
  function PriorDeps(previous: Option<Deps>, renders: seq<Render>, i: nat): Option<Deps>
    requires i < |renders|
  {
    if i == 0 then previous else Some(DepsOf(renders[i - 1]))
  }

  /** At render i the dependencies changed, so the effect runs, and it finds the section ready and a callback. */
  predicate CallsAt(previous: Option<Deps>, renders: seq<Render>, i: nat)
    requires i < |renders|
  {
    PriorDeps(previous, renders, i) != Some(DepsOf(renders[i])) && Ready(renders[i]) && renders[i].onReady.Some?
  }

  /** The number of renders among the first n at which the callback is called. */
  function CallsAmong(previous: Option<Deps>, renders: seq<Render>, n: nat): nat
    requires n <= |renders|
  {
    if n == 0 then 0 else CallsAmong(previous, renders, n - 1) + (if CallsAt(previous, renders, n - 1) then 1 else 0)
  }

  /** Counting the calls of a trace is counting the first render's call and those of the rest. */
  lemma {:induction false} CallsAmongShift(previous: Option<Deps>, renders: seq<Render>, n: nat)
    requires 0 < n <= |renders|
    ensures CallsAmong(previous, renders, n) ==
      (if CallsAt(previous, renders, 0) then 1 else 0) + CallsAmong(Some(DepsOf(renders[0])), renders[1..], n - 1)
  {
    if n > 1 {
      CallsAmongShift(previous, renders, n - 1);
      assert renders[1..][n - 2] == renders[n - 1];
      assert CallsAt(previous, renders, n - 1) == CallsAt(Some(DepsOf(renders[0])), renders[1..], n - 2);
    }
  }

  /**
   * Number of times the callback is called over a sequence of renders, as
   * the effect does it: the effect runs on the first render and whenever its
   * dependencies differ from the previous render's, and when it runs it calls
   * the callback if the section is ready and a callback is present. That is
   * one call per ready render with a callback whose dependencies changed.
   */
  function ReadyCalls(previous: Option<Deps>, renders: seq<Render>): (n: nat)
    ensures n == CallsAmong(previous, renders, |renders|)
    decreases |renders|
  {
    if renders == [] then 0
    else
      var deps := DepsOf(renders[0]);
      var runs := previous != Some(deps);
      CallsAmongShift(previous, renders, |renders|);
      (if runs && deps.ready && deps.onReady.Some? then 1 else 0) + ReadyCalls(Some(deps), renders[1..])
  }

  /** Both flags only ever go from false to true. */
  predicate FlagsOnlyRise(renders: seq<Render>) {
    forall i, j :: 0 <= i < j < |renders| ==>
      (renders[i].pageReady ==> renders[j].pageReady) && (renders[i].modelReady ==> renders[j].modelReady)
  }

  /** Once both flags are set the section stays ready for the rest of the trace. */
  lemma ReadyStaysReady(renders: seq<Render>, i: nat, j: nat)
    requires FlagsOnlyRise(renders) && i <= j < |renders|
    requires Ready(renders[i])
    ensures Ready(renders[j])
  {
    if i < j {
      assert renders[i].pageReady ==> renders[j].pageReady;
    }
  }

  /** Some render among the first n is ready. */
  predicate ReadyAmong(renders: seq<Render>, n: nat)
    requires n <= |renders|
  {
    exists j | 0 <= j < n :: Ready(renders[j])
  }

  /** The number of renders among the first n that hand over a different callback than the render before. */
  function ChangesAmong(renders: seq<Render>, n: nat): nat
    requires n <= |renders|
  {
    if n <= 1 then 0
    else ChangesAmong(renders, n - 1) + (if renders[n - 1].onReady != renders[n - 2].onReady then 1 else 0)
  }

  /** How often the parent handed Hero a new callback. */
  function CallbackChanges(renders: seq<Render>): nat {
    ChangesAmong(renders, |renders|)
  }

  lemma {:induction false} CallsAmongBound(renders: seq<Render>, n: nat)
    requires FlagsOnlyRise(renders) && n <= |renders|
    ensures CallsAmong(None, renders, n) <= (if ReadyAmong(renders, n) then 1 else 0) + ChangesAmong(renders, n)
  {
    if n > 0 {
      CallsAmongBound(renders, n - 1);
      assert ReadyAmong(renders, n - 1) ==> ReadyAmong(renders, n);
      if CallsAt(None, renders, n - 1) {
        assert ReadyAmong(renders, n);
        if n > 1 && renders[n - 1].onReady == renders[n - 2].onReady {
          assert !Ready(renders[n - 2]);
          if ReadyAmong(renders, n - 1) {
            var j :| 0 <= j < n - 1 && Ready(renders[j]);
            ReadyStaysReady(renders, j, n - 2);
            assert false;
          }
        }
      }
    }
  }

  lemma {:induction false} CalledWhenEndsReady(previous: Option<Deps>, renders: seq<Render>, n: nat)
    requires 0 < n <= |renders|
    requires !(previous.Some? && previous.value.ready && previous.value.onReady.Some?)
    requires Ready(renders[n - 1]) && renders[n - 1].onReady.Some?
    ensures CallsAmong(previous, renders, n) >= 1
  {
    if !CallsAt(previous, renders, n - 1) {
      if n == 1 {
        assert false;
      }
      CalledWhenEndsReady(previous, renders, n - 1);
    }
  }

  /**
   * With flags that only rise, the callback is called once when the section
   * first becomes ready and again each time the parent hands over a new
   * callback while it is ready: at most one call more than the number of new
   * callbacks, so at most once when the parent keeps one callback. A trace
   * that ends ready with a callback has called it at least once.
   */
  lemma ReadyNotifiedOnce(renders: seq<Render>)
    requires FlagsOnlyRise(renders)
    ensures ReadyCalls(None, renders) <= 1 + CallbackChanges(renders)
    ensures renders != [] && Ready(renders[|renders| - 1]) && renders[|renders| - 1].onReady.Some? ==>
      ReadyCalls(None, renders) >= 1
  {
    CallsAmongBound(renders, |renders|);
    if renders != [] && Ready(renders[|renders| - 1]) && renders[|renders| - 1].onReady.Some? {
      CalledWhenEndsReady(None, renders, |renders|);
    }
  }

  /** The effect never calls the callback on a render where the section is not ready. */
  lemma {:induction false} NoCallWhileNotReady(previous: Option<Deps>, renders: seq<Render>)
    requires forall i :: 0 <= i < |renders| ==> !Ready(renders[i])
    ensures ReadyCalls(previous, renders) == 0
    decreases |renders|
  {
    if renders != [] {
      NoCallWhileNotReady(Some(DepsOf(renders[0])), renders[1..]);
    }
  }

  /**
   * The samples page (`/samples`) passes a new arrow function on every render. Once the
   * section is ready the callback is called; it makes the page re-render,
   * which hands Hero a new callback, so the effect runs again and calls the
   * new callback a second time. With a once-only guard the same trace calls
   * it once.
   */
  lemma SamplesPageCalledTwice()
    ensures ReadyCalls(None, SamplesPageTrace) == 2
    ensures GuardedReadyCalls(None, false, SamplesPageTrace) == 1
  {
  }

  /** Not ready, page ready, both ready, then the re-rendered page's new callback. */
  const SamplesPageTrace := [
    Render(false, false, Some(1)), Render(true, false, Some(1)),
    Render(true, true, Some(1)), Render(true, true, Some(2))]

  /**
   * The notification with a once-only guard, as the 3D model does it: the
   * effect still runs whenever its dependencies change, but it calls the
   * callback only if it has not called one before.
   */
  function GuardedReadyCalls(previous: Option<Deps>, called: bool, renders: seq<Render>): nat
    decreases |renders|
  {
    if renders == [] then 0
    else
      var deps := DepsOf(renders[0]);
      var fires := previous != Some(deps) && deps.ready && deps.onReady.Some? && !called;
      (if fires then 1 else 0) + GuardedReadyCalls(Some(deps), called || fires, renders[1..])
  }

  lemma {:induction false} GuardedCallsFrom(previous: Option<Deps>, called: bool, renders: seq<Render>)
    ensures called ==> GuardedReadyCalls(previous, called, renders) == 0
    ensures GuardedReadyCalls(previous, called, renders) <= 1
    ensures !called && !(previous.Some? && previous.value.ready && previous.value.onReady.Some?) ==>
      (GuardedReadyCalls(previous, called, renders) == 1 <==>
        exists i | 0 <= i < |renders| :: Ready(renders[i]) && renders[i].onReady.Some?)
    decreases |renders|
  {
    if renders != [] {
      var deps := DepsOf(renders[0]);
      var fires := previous != Some(deps) && deps.ready && deps.onReady.Some? && !called;
      var rest := renders[1..];
      GuardedCallsFrom(Some(deps), called || fires, rest);
      if !called && !fires && !(previous.Some? && previous.value.ready && previous.value.onReady.Some?) {
        assert (exists i | 0 <= i < |renders| :: Ready(renders[i]) && renders[i].onReady.Some?) <==>
          (exists i | 0 <= i < |rest| :: Ready(rest[i]) && rest[i].onReady.Some?) by {
          forall i | 0 <= i < |rest| ensures rest[i] == renders[i + 1] {}
          if exists i | 0 <= i < |renders| :: Ready(renders[i]) && renders[i].onReady.Some? {
            var i :| 0 <= i < |renders| && Ready(renders[i]) && renders[i].onReady.Some?;
            assert i > 0;
            assert Ready(rest[i - 1]) && rest[i - 1].onReady.Some?;
          }
        }
      }
    }
  }

  /**
   * With the guard the callback is called at most once on every trace, even
   * when the parent hands over a new callback on every render, and exactly
   * once when some render is ready and has a callback.
   */
  lemma GuardedNotifiedOnce(renders: seq<Render>)
    ensures GuardedReadyCalls(None, false, renders) <= 1
    ensures GuardedReadyCalls(None, false, renders) == 1 <==>
      exists i | 0 <= i < |renders| :: Ready(renders[i]) && renders[i].onReady.Some?
  {
    GuardedCallsFrom(None, false, renders);
  }
}

=== FILE: keyframes.dfy ===
/**
 * Keyframe tables: the fixed data the showcase hands to the animation
 * library's scroll-linked transforms. Each table lists scroll positions
 * (inputs) and the property value wanted at each of them (outputs).
 *
 * The library does the interpolation itself, and that code is not part of
 * this model. `Value` below is the clamped piecewise-linear reading of a table
 * that the library documents; it is a specification device, used only to
 * state what the tables guarantee for every scroll position.
 */
module Keyframes {

  datatype Table = Table(inputs: seq<real>, outputs: seq<real>)

  predicate StrictlyIncreasing(s: seq<real>) {
    forall i :: 0 <= i < |s| - 1 ==> s[i] < s[i + 1]
  }

  /** At least two keyframes, one output per input, inputs strictly increasing. */
  predicate WellFormed(t: Table) {
    && |t.inputs| >= 2
    && |t.inputs| == |t.outputs|
    && StrictlyIncreasing(t.inputs)
  }

  /** Every output lies in [lo, hi]. */
  predicate OutputsWithin(t: Table, lo: real, hi: real) {
    forall i :: 0 <= i < |t.outputs| ==> lo <= t.outputs[i] <= hi
  }

  function Last(s: seq<real>): real
    requires |s| > 0
  {
    s[|s| - 1]
  }

  /**
   * Clamped piecewise-linear interpolation: the first output before the first
   * input, the last output after the last input, a straight line in between.
   */
  function Interp(ins: seq<real>, outs: seq<real>, x: real): real
    requires |ins| == |outs| >= 1
    requires StrictlyIncreasing(ins)
    decreases |ins|
  {
    if |ins| == 1 || x <= ins[0] then outs[0]
    else if x < ins[1] then outs[0] + (outs[1] - outs[0]) * ((x - ins[0]) / (ins[1] - ins[0]))
    else Interp(ins[1..], outs[1..], x)
  }

  function Value(t: Table, x: real): real
    requires WellFormed(t)
  {
    Interp(t.inputs, t.outputs, x)
  }

  /** A point of a segment between two values in [lo, hi] is also in [lo, hi]. */
  lemma SegmentWithin(o0: real, o1: real, x: real, i0: real, i1: real, lo: real, hi: real)
    requires i0 < x < i1
    requires lo <= o0 <= hi && lo <= o1 <= hi
    ensures lo <= o0 + (o1 - o0) * ((x - i0) / (i1 - i0)) <= hi
  {
    var t := (x - i0) / (i1 - i0);
    assert t * (i1 - i0) == x - i0;
    FractionBelowOne(x - i0, i1 - i0);
    assert o0 + (o1 - o0) * t == (1.0 - t) * o0 + t * o1;
    assert (1.0 - t) * lo <= (1.0 - t) * o0 <= (1.0 - t) * hi;
    assert t * lo <= t * o1 <= t * hi;
  }

  lemma FractionBelowOne(a: real, b: real)
    requires 0.0 < a < b
    ensures 0.0 < a / b < 1.0
  {
    if a / b >= 1.0 {
      // then a = (a / b) * b >= b, against a < b
      assert false;
    }
  }

  lemma {:induction false} InterpWithin(ins: seq<real>, outs: seq<real>, x: real, lo: real, hi: real)
    requires |ins| == |outs| >= 1
    requires StrictlyIncreasing(ins)
    requires forall i :: 0 <= i < |outs| ==> lo <= outs[i] <= hi
    ensures lo <= Interp(ins, outs, x) <= hi
    decreases |ins|
  {
    if |ins| == 1 || x <= ins[0] {
    } else if x < ins[1] {
      SegmentWithin(outs[0], outs[1], x, ins[0], ins[1], lo, hi);
    } else {
      InterpWithin(ins[1..], outs[1..], x, lo, hi);
    }
  }

  /** A table whose outputs lie in [lo, hi] never yields a value outside it. */
  lemma ValueWithin(t: Table, x: real, lo: real, hi: real)
    requires WellFormed(t) && OutputsWithin(t, lo, hi)
    ensures lo <= Value(t, x) <= hi
  {
    InterpWithin(t.inputs, t.outputs, x, lo, hi);
  }

  lemma {:induction false} InterpAfterLast(ins: seq<real>, outs: seq<real>, x: real)
    requires |ins| == |outs| >= 1
    requires StrictlyIncreasing(ins)
    requires x >= Last(ins)
    ensures Interp(ins, outs, x) == Last(outs)
    decreases |ins|
  {
    if |ins| > 1 {
      assert ins[0] < ins[1] <= Last(ins) by {
        InStrictOrder(ins, 1, |ins| - 1);
      }
      InterpAfterLast(ins[1..], outs[1..], x);
    }
  }

  lemma {:induction false} InStrictOrder(s: seq<real>, i: nat, j: nat)
    requires StrictlyIncreasing(s)
    requires i <= j < |s|
    ensures s[i] <= s[j]
    decreases j - i
  {
    if i < j {
      InStrictOrder(s, i + 1, j);
    }
  }

  /** Scroll positions before the first keyframe give the first value. */
  lemma ValueBeforeFirst(t: Table, x: real)
    requires WellFormed(t) && x <= t.inputs[0]
    ensures Value(t, x) == t.outputs[0]
  {
  }

  /** Scroll positions after the last keyframe give the last value. */
  lemma ValueAfterLast(t: Table, x: real)
    requires WellFormed(t) && x >= Last(t.inputs)
    ensures Value(t, x) == Last(t.outputs)
  {
    InterpAfterLast(t.inputs, t.outputs, x);
  }

  lemma {:induction false} InterpAtKeyframe(ins: seq<real>, outs: seq<real>, k: nat)
    requires |ins| == |outs| >= 1
    requires StrictlyIncreasing(ins)
    requires k < |ins|
    ensures Interp(ins, outs, ins[k]) == outs[k]
    decreases k
  {
    if k > 0 {
      InStrictOrder(ins, 1, k);
      InterpAtKeyframe(ins[1..], outs[1..], k - 1);
    }
  }

  /** At each keyframe the table yields exactly the value listed for it. */
  lemma ValueAtKeyframe(t: Table, k: nat)
    requires WellFormed(t) && k < |t.inputs|
    ensures Value(t, t.inputs[k]) == t.outputs[k]
  {
    InterpAtKeyframe(t.inputs, t.outputs, k);
  }
}

=== FILE: option.dfy ===
/** An optional value: a property that may be absent from an object. */
module Optional {
  datatype Option<+T> = None | Some(value: T)
}

=== FILE: screen.dfy ===
/**
 * Viewport measurements shared by the hero section and the product showcase.
 * Both components keep their own copy of the same screen-dimension hook and the
 * same stroke-width rule; they are defined once here.
 */
module Screen {

  /** Window size in device-independent pixels. */
  datatype Dimensions = Dimensions(width: real, height: real)

  /** The size assumed before the first resize measurement arrives. */
  const Initial := Dimensions(1440.0, 900.0)

  /** A viewport is portrait only when it is strictly taller than wide. */
  predicate IsPortrait(d: Dimensions): (r: bool)
    ensures d.height > 0.0 ==> (r <==> AspectRatio(d) < 1.0)
  {
    PortraitIffNarrow(d);
    d.height > d.width
  }

  /** Taller than wide is the same as an aspect ratio below 1. */
  lemma PortraitIffNarrow(d: Dimensions)
    ensures d.height > 0.0 ==> (d.height > d.width <==> AspectRatio(d) < 1.0)
  {
    if d.height > 0.0 {
      var ratio := AspectRatio(d);
      ScaleBelow(ratio, d.height);
      assert ratio * d.height == d.width;
    }
  }

  lemma ScaleBelow(r: real, h: real)
    requires h > 0.0
    ensures r < 1.0 <==> r * h < h
  {
    if r < 1.0 {
      assert h - r * h == (1.0 - r) * h;
    } else {
      assert r * h - h == (r - 1.0) * h;
    }
  }

  function AspectRatio(d: Dimensions): (r: real)
    requires d.height > 0.0
    ensures r * d.height == d.width
    ensures r > 1.0 <==> d.width > d.height
  {
    d.width / d.height
  }

  function Min(a: real, b: real): real { if a <= b then a else b }
  function Max(a: real, b: real): real { if a >= b then a else b }

  /**
   * Stroke width of the decorative curves: 4% of the viewport width,
   * clamped to [30, 60].
   */
  function StrokeWidth(width: real): (r: real)
    ensures 30.0 <= r <= 60.0
    ensures 750.0 <= width <= 1500.0 ==> r == width * 0.04
    ensures width <= 750.0 ==> r == 30.0
    ensures width >= 1500.0 ==> r == 60.0
  {
    Max(30.0, Min(60.0, width * 0.04))
  }

  /** A wider window never gets a thinner stroke. */
  lemma StrokeWidthMonotone(w1: real, w2: real)
    requires w1 <= w2
    ensures StrokeWidth(w1) <= StrokeWidth(w2)
  {
  }
}

=== FILE: showcase.dfy ===
/**
 * The scroll-driven product showcase: which demo video plays, which videos
 * have been preloaded, the rectangle clip that reveals the third scene, the
 * write-in/write-out rule of the decorative curves, and the keyframe tables
 * that drive the phone, titles and curves.
 */
module Showcase {
  import opened Keyframes

  // ---------------------------------------------------------------------
  // Videos
  // ---------------------------------------------------------------------

  datatype Video = Video1 | Video2 | Video3

  /** Position of a video in the story: 1, 2 or 3. */
  function Rank(v: Video): nat {
    match v
    case Video1 => 1
    case Video2 => 2
    case Video3 => 3
  }

  /**
   * The video that belongs to raw scroll progress v. The three ranges
   * partition the reals: nothing is left unassigned, and overscroll on either
   * side falls into the first or last range.
   */
  function SelectVideo(v: real): (r: Video)
    ensures r == Video3 <==> v > 0.78
    ensures r == Video2 <==> 0.2 < v <= 0.78
    ensures r == Video1 <==> v <= 0.2
  {
    if v > 0.78 then Video3 else if v > 0.2 then Video2 else Video1
  }

  /** Scrolling further down never selects an earlier video. */
  lemma SelectVideoMonotone(v: real, w: real)
    requires v <= w
    ensures Rank(SelectVideo(v)) <= Rank(SelectVideo(w))
  {
  }

  /** The videos a preload handler asks for at progress v. */
  function PreloadTargets(v: real): (r: set<Video>)
    ensures Video2 in r <==> v > 0.1
    ensures Video3 in r <==> v > 0.6
    ensures Video1 !in r
  {
    (if v > 0.1 then {Video2} else {}) + (if v > 0.6 then {Video3} else {})
  }

  /** The preload requests issued at progress v when `have` is already loaded, in handler order. */
  function NewPreloads(have: set<Video>, v: real): (r: seq<Video>)
    ensures forall x :: x in r <==> x in PreloadTargets(v) && x !in have
    ensures |r| <= 2
  {
    (if v > 0.1 && Video2 !in have then [Video2] else [])
      + (if v > 0.6 && Video3 !in have then [Video3] else [])
  }

  /**
   * Whatever progress the switch handler sees, the video it selects is one
   * that the preload handler has loaded for that same progress: switching
   * never waits on a video nobody asked for.
   */
  lemma SelectedIsPreloaded(v: real)
    ensures SelectVideo(v) in {Video1} + PreloadTargets(v)
  {
  }

  predicate NoDuplicates(s: seq<Video>) {
    forall i, j :: 0 <= i < j < |s| ==> s[i] != s[j]
  }

  /**
   * The showcase's video state: the source currently shown, the set of
   * preloaded sources, and the side effects issued so far (preload
   * requests, source switches, restarts of the mounted video element).
   */
  class ShowcaseState {
    var currentVideo: Video
    var preloaded: set<Video>
    var preloadRequests: seq<Video>
    var switches: seq<(Video, Video)>
    var restarts: nat

    /**
     * The first video counts as preloaded from the start; every other
     * preloaded video was requested exactly once.
     */
    ghost predicate Valid()
      reads this
    {
      && preloaded == {Video1} + (set x | x in preloadRequests)
      && Video1 !in preloadRequests
      && NoDuplicates(preloadRequests)
    }

    constructor ()
      ensures Valid()
      ensures currentVideo == Video1 && preloaded == {Video1}
      ensures preloadRequests == [] && switches == [] && restarts == 0
    {
      currentVideo := Video1;
      preloaded := {Video1};
      preloadRequests := [];
      switches := [];
      restarts := 0;
    }

    /**
     * Preload handler for one change of raw scroll progress: past 10% it
     * requests the second video, past 60% the third, each only if it is not
     * preloaded yet. The set only ever grows.
     */
    method PreloadOnScroll(v: real)
      requires Valid()
      modifies this
      ensures Valid()
      ensures preloaded == old(preloaded) + PreloadTargets(v)
      ensures old(preloaded) <= preloaded
      ensures preloadRequests == old(preloadRequests) + NewPreloads(old(preloaded), v)
      ensures currentVideo == old(currentVideo) && switches == old(switches) && restarts == old(restarts)
    {
      if v > 0.1 && Video2 !in preloaded {
        preloadRequests := preloadRequests + [Video2];
        preloaded := preloaded + {Video2};
      }
      if v > 0.6 && Video3 !in preloaded {
        preloadRequests := preloadRequests + [Video3];
        preloaded := preloaded + {Video3};
      }
    }

    /**
     * Switch handler for one change of raw scroll progress. Afterwards the
     * shown source is the one selected for v. A switch is recorded, and the
     * video element (when mounted) is reloaded and restarted, only when the
     * selected source differs from the one shown; so a second call with the
     * same v changes nothing.
     */
    method SwitchOnScroll(v: real, elementMounted: bool)
      modifies this
      ensures currentVideo == SelectVideo(v)
      ensures switches == old(switches)
        + (if old(currentVideo) != SelectVideo(v) then [(old(currentVideo), SelectVideo(v))] else [])
      ensures restarts == old(restarts)
        + (if old(currentVideo) != SelectVideo(v) && elementMounted then 1 else 0)
      ensures preloaded == old(preloaded) && preloadRequests == old(preloadRequests)
    {
      if v > 0.78 && currentVideo != Video3 {
        Show(Video3, elementMounted);
      } else if v > 0.2 && v <= 0.78 && currentVideo != Video2 {
        Show(Video2, elementMounted);
      } else if v <= 0.2 && currentVideo != Video1 {
        Show(Video1, elementMounted);
      }
    }

    /** Set the source, then reload and play the element if there is one. */
    method Show(target: Video, elementMounted: bool)
      modifies this
      ensures currentVideo == target
      ensures switches == old(switches) + [(old(currentVideo), target)]
      ensures restarts == old(restarts) + (if elementMounted then 1 else 0)
      ensures preloaded == old(preloaded) && preloadRequests == old(preloadRequests)
    {
      switches := switches + [(currentVideo, target)];
      currentVideo := target;
      if elementMounted {
        restarts := restarts + 1;
      }
    }

    /**
     * One change event delivered to both subscribers. The preload handler
     * touches only the preloaded set and its request log, the switch handler
     * only the shown video, the switch log and the restart count, so the
     * order in which they run does not matter. The video shown afterwards is
     * always a preloaded one.
     */
    method OnScroll(v: real, elementMounted: bool)
      requires Valid()
      modifies this
      ensures Valid()
      ensures currentVideo == SelectVideo(v) && currentVideo in preloaded
      ensures preloaded == old(preloaded) + PreloadTargets(v)
      ensures preloadRequests == old(preloadRequests) + NewPreloads(old(preloaded), v)
      ensures switches == old(switches)
        + (if old(currentVideo) != SelectVideo(v) then [(old(currentVideo), SelectVideo(v))] else [])
      ensures restarts == old(restarts)
        + (if old(currentVideo) != SelectVideo(v) && elementMounted then 1 else 0)
    {
      PreloadOnScroll(v);
      SwitchOnScroll(v, elementMounted);
      SelectedIsPreloaded(v);
    }
  }

  /**
   * A first event at 77% requests both later videos and switches to the
   * second; scrolling on to 79% crosses one boundary and records exactly one
   * switch, from the second video to the third, without a new request; another
   * event at 79% records nothing and restarts nothing.
   */
  method SwitchScenario() {
    var state := new ShowcaseState();
    state.OnScroll(0.77, true);
    assert NewPreloads({Video1}, 0.77) == [Video2, Video3];
    assert state.preloadRequests == [Video2, Video3] && state.preloaded == {Video1, Video2, Video3};
    assert state.switches == [(Video1, Video2)];
    state.OnScroll(0.79, true);
    assert NewPreloads({Video1, Video2, Video3}, 0.79) == [];
    assert state.switches == [(Video1, Video2), (Video2, Video3)] && state.restarts == 2;
    state.OnScroll(0.79, true);
    assert state.switches == [(Video1, Video2), (Video2, Video3)] && state.restarts == 2;
    assert state.preloadRequests == [Video2, Video3];
  }

  // ---------------------------------------------------------------------
  // Clip geometry and decorative curves
  // ---------------------------------------------------------------------

  /** An `inset(top right bottom left)` clip, each side in percent. */
  datatype Insets = Insets(top: real, right: real, bottom: real, left: real)

  /**
   * The rectangle clip for a rectangle w% wide and h% high: it is anchored
   * at the left edge and centred vertically.
   */
  function RectangleInsets(w: real, h: real): (r: Insets)
    ensures r.left == 0.0
    ensures 100.0 - r.left - r.right == w
    ensures r.top == r.bottom && 100.0 - r.top - r.bottom == h
  {
    Insets((100.0 - h) / 2.0, 100.0 - w, (100.0 - h) / 2.0, 0.0)
  }

  /** Within the ranges the tables produce, every inset is a valid percentage. */
  lemma RectangleInsetsWithin(w: real, h: real)
    requires 0.0 <= w <= 100.0 && 0.5 <= h <= 100.0
    ensures 0.0 <= RectangleInsets(w, h).right <= 100.0
    ensures 0.0 <= RectangleInsets(w, h).top <= 49.75
  {
  }

  /** For every scroll position the rectangle clip driven by its two tables is valid. */
  lemma RectangleClipWithin(p: real)
    ensures 0.0 <= RectangleInsets(Value(RectangleWidth, p), Value(RectangleHeight, p)).right <= 100.0
    ensures 0.0 <= RectangleInsets(Value(RectangleWidth, p), Value(RectangleHeight, p)).top <= 49.75
  {
    ValueWithin(RectangleWidth, p, 0.0, 100.0);
    ValueWithin(RectangleHeight, p, 0.5, 100.0);
    RectangleInsetsWithin(Value(RectangleWidth, p), Value(RectangleHeight, p));
  }

  /**
   * Drawn length of a decorative curve: the write-out value once it has
   * started to fall below 1, the write-in value before that.
   */
  function PathLength(progressIn: real, progressOut: real): (r: real)
    ensures progressOut < 1.0 ==> r == progressOut
    ensures progressOut >= 1.0 ==> r == progressIn
    ensures 0.0 <= progressIn <= 1.0 && 0.0 <= progressOut <= 1.0 ==> 0.0 <= r <= 1.0
  {
    if progressOut < 1.0 then progressOut else progressIn
  }

  datatype Curve = Curve1 | Curve2 | Curve3

  function WriteIn(c: Curve): Table {
    match c
    case Curve1 => Curve1ProgressIn
    case Curve2 => Curve2ProgressIn
    case Curve3 => Curve3ProgressIn
  }

  function WriteOut(c: Curve): Table {
    match c
    case Curve1 => Curve1ProgressOut
    case Curve2 => Curve2ProgressOut
    case Curve3 => Curve3ProgressOut
  }

  /** A write-out table falls from 1 to 0 between its two keyframes. */
  lemma WriteOutFalls(t: Table, x: real)
    requires |t.inputs| == 2 && t.inputs[0] < t.inputs[1]
    requires t.outputs == [1.0, 0.0]
    ensures x <= t.inputs[0] ==> Value(t, x) == 1.0
    ensures x > t.inputs[0] ==> 0.0 <= Value(t, x) < 1.0
  {
    if t.inputs[0] < x < t.inputs[1] {
      FractionBelowOne(x - t.inputs[0], t.inputs[1] - t.inputs[0]);
    } else if x >= t.inputs[1] {
      ValueAfterLast(t, x);
    }
  }

  /**
   * Each curve is written in until its write-out keyframe range begins and
   * written out from then on; its drawn length always lies in [0, 1].
   * (The first curve's write-in follows the entry progress of the section,
   * so the two progress values are separate.)
   */
  lemma CurvePathLength(c: Curve, progressIn: real, progressOut: real)
    ensures var len := PathLength(Value(WriteIn(c), progressIn), Value(WriteOut(c), progressOut));
      && 0.0 <= len <= 1.0
      && (progressOut <= WriteOut(c).inputs[0] ==> len == Value(WriteIn(c), progressIn))
      && (progressOut > WriteOut(c).inputs[0] ==> len == Value(WriteOut(c), progressOut))
  {
    WriteOutFalls(WriteOut(c), progressOut);
    ValueWithin(WriteIn(c), progressIn, 0.0, 1.0);
  }

  // ---------------------------------------------------------------------
  // Keyframe tables. Driven by the spring-smoothed section progress unless
  // marked "entry": those follow the progress of the section entering view.
  // ---------------------------------------------------------------------

  /** Phone rotation in degrees: a half turn per shrink or grow, two full turns overall. */
  const Rotate := Table([0.0, 0.12, 0.18, 0.35, 0.6, 0.75, 0.85], [0.0, 0.0, 180.0, 360.0, 360.0, 540.0, 720.0])
  /** Phone scale: shrinks to nothing twice and grows back to full size. */
  const Scale := Table([0.0, 0.12, 0.18, 0.35, 0.6, 0.75, 0.85], [1.0, 1.0, 0.0, 1.0, 1.0, 0.0, 1.0])
  /** Radius, in percent, of the purple circle clip. */
  const CircleRadius := Table([0.18, 0.23, 0.45, 0.6], [0.0, 10.0, 100.0, 150.0])

  // First title (entry)
  const Text1Opacity := Table([0.3, 0.5, 0.7], [0.0, 1.0, 1.0])
  const Text1Y := Table([0.3, 0.5, 0.7], [20.0, 0.0, 0.0])
  const Text2Opacity := Table([0.4, 0.6, 0.8], [0.0, 1.0, 1.0])
  const Text2Y := Table([0.4, 0.6, 0.8], [20.0, 0.0, 0.0])
  const Text3Opacity := Table([0.5, 0.7, 0.9], [0.0, 1.0, 1.0])
  const Text3Y := Table([0.5, 0.7, 0.9], [20.0, 0.0, 0.0])
  const FirstTitleOpacity := Table([0.08, 0.12, 0.18], [1.0, 1.0, 0.0])

  // Second title
  const Text1Opacity2 := Table([0.25, 0.32, 0.38], [0.0, 1.0, 1.0])
  const Text1Y2 := Table([0.25, 0.32, 0.38], [20.0, 0.0, 0.0])
  const Text2Opacity2 := Table([0.27, 0.34, 0.4], [0.0, 1.0, 1.0])
  const Text2Y2 := Table([0.27, 0.34, 0.4], [20.0, 0.0, 0.0])
  const Text3Opacity2 := Table([0.29, 0.36, 0.42], [0.0, 1.0, 1.0])
  const Text3Y2 := Table([0.29, 0.36, 0.42], [20.0, 0.0, 0.0])
  const SecondTitleOpacity := Table([0.3, 0.55, 0.63], [0.0, 1.0, 0.0])

  // Rectangle reveal: a line drawn left to right, then opened vertically
  const RectangleWidth := Table([0.65, 0.72], [0.0, 100.0])
  const RectangleHeight := Table([0.72, 0.82, 0.95], [0.5, 50.0, 100.0])

  // Third title
  const Text1Opacity3 := Table([0.78, 0.83, 0.88], [0.0, 1.0, 1.0])
  const Text1Y3 := Table([0.78, 0.83, 0.88], [20.0, 0.0, 0.0])
  const Text2Opacity3 := Table([0.8, 0.85, 0.9], [0.0, 1.0, 1.0])
  const Text2Y3 := Table([0.8, 0.85, 0.9], [20.0, 0.0, 0.0])
  const Text3Opacity3 := Table([0.82, 0.87, 0.92], [0.0, 1.0, 1.0])
  const Text3Y3 := Table([0.82, 0.87, 0.92], [20.0, 0.0, 0.0])
  const ThirdTitleOpacity := Table([0.75, 0.82], [0.0, 1.0])

  // Decorative curves (Curve1ProgressIn and Curve1Opacity: entry)
  const Curve1ProgressIn := Table([0.5, 0.9], [0.0, 1.0])
  const Curve1ProgressOut := Table([0.12, 0.18], [1.0, 0.0])
  const Curve1Opacity := Table([0.0, 0.5, 0.6], [0.0, 0.0, 1.0])
  const Curve2ProgressIn := Table([0.2, 0.35], [0.0, 1.0])
  const Curve2ProgressOut := Table([0.6, 0.65], [1.0, 0.0])
  const Curve2Opacity := Table([0.18, 0.2], [0.0, 1.0])
  const Curve3ProgressIn := Table([0.75, 0.85], [0.0, 1.0])
  const Curve3ProgressOut := Table([0.92, 0.98], [1.0, 0.0])
  const Curve3Opacity := Table([0.73, 0.75], [0.0, 1.0])

  // Title reveals: the right inset, in percent, of each title's
  // `inset(0 r% 0 0)` clip; the first follows the entry progress
  const Title1Reveal := Table([0.3, 0.7], [100.0, 0.0])
  const Title2Reveal := Table([0.25, 0.4], [100.0, 0.0])
  const Title3Reveal := Table([0.78, 0.88], [100.0, 0.0])

  /** Every title-reveal table. */
  const Reveals := [Title1Reveal, Title2Reveal, Title3Reveal]

  /** Every opacity table. */
  const Opacities := [
    Text1Opacity, Text2Opacity, Text3Opacity, FirstTitleOpacity,
    Text1Opacity2, Text2Opacity2, Text3Opacity2, SecondTitleOpacity,
    Text1Opacity3, Text2Opacity3, Text3Opacity3, ThirdTitleOpacity,
    Curve1Opacity, Curve2Opacity, Curve3Opacity]

  /** Every vertical-offset table of the title lines (pixels). */
  const Offsets := [Text1Y, Text2Y, Text3Y, Text1Y2, Text2Y2, Text3Y2, Text1Y3, Text2Y3, Text3Y3]

  /** Every write-in or write-out table of the curves. */
  const CurveProgress := [
    Curve1ProgressIn, Curve1ProgressOut, Curve2ProgressIn,
    Curve2ProgressOut, Curve3ProgressIn, Curve3ProgressOut]

  /** All tables of the section. */
  const AllTables := [Rotate, Scale, CircleRadius, RectangleWidth, RectangleHeight]
    + Opacities + Offsets + CurveProgress + Reveals

  /**
   * The tables are well formed: as many outputs as inputs, inputs strictly
   * increasing. Rotate and scale share seven keyframes; the phone ends two
   * full turns round (right side up) at full size, and starts at full size.
   */
  lemma TablesWellFormed()
    ensures forall t :: t in AllTables ==> WellFormed(t)
    ensures forall t :: t in Opacities ==> WellFormed(t)
    ensures forall t :: t in Offsets ==> WellFormed(t)
    ensures forall t :: t in CurveProgress ==> WellFormed(t)
    ensures forall t :: t in Reveals ==> WellFormed(t)
    ensures |Rotate.inputs| == |Scale.inputs| == 7 && Rotate.inputs == Scale.inputs
    ensures Last(Rotate.outputs) == 720.0 && (Last(Rotate.outputs) as int) % 360 == 0
    ensures Scale.outputs[0] == 1.0 && Last(Scale.outputs) == 1.0
  {
    OpacitiesWellFormed();
    OffsetsWellFormed();
    CurveProgressWellFormed();
    assert WellFormed(Rotate) && WellFormed(Scale) && WellFormed(CircleRadius);
    assert WellFormed(RectangleWidth) && WellFormed(RectangleHeight);
    assert WellFormed(Title1Reveal) && WellFormed(Title2Reveal) && WellFormed(Title3Reveal);
  }

  lemma OpacitiesWellFormed()
    ensures forall t :: t in Opacities ==> WellFormed(t)
  {
    assert WellFormed(Text1Opacity) && WellFormed(Text2Opacity) && WellFormed(Text3Opacity);
    assert WellFormed(FirstTitleOpacity);
    assert WellFormed(Text1Opacity2) && WellFormed(Text2Opacity2) && WellFormed(Text3Opacity2);
    assert WellFormed(SecondTitleOpacity);
    assert WellFormed(Text1Opacity3) && WellFormed(Text2Opacity3) && WellFormed(Text3Opacity3);
    assert WellFormed(ThirdTitleOpacity);
    assert WellFormed(Curve1Opacity) && WellFormed(Curve2Opacity) && WellFormed(Curve3Opacity);
  }

  lemma OffsetsWellFormed()
    ensures forall t :: t in Offsets ==> WellFormed(t)
  {
  }

  lemma CurveProgressWellFormed()
    ensures forall t :: t in CurveProgress ==> WellFormed(t)
  {
  }

  /** A well-formed table whose outputs all lie in [lo, hi]. */
  predicate Ranged(t: Table, lo: real, hi: real) {
    WellFormed(t) && OutputsWithin(t, lo, hi)
  }

  lemma OpacitiesRanged()
    ensures forall t :: t in Opacities ==> Ranged(t, 0.0, 1.0)
  {
    OpacitiesWellFormed();
    assert OutputsWithin(Text1Opacity, 0.0, 1.0) && OutputsWithin(Text2Opacity, 0.0, 1.0);
    assert OutputsWithin(Text3Opacity, 0.0, 1.0) && OutputsWithin(FirstTitleOpacity, 0.0, 1.0);
    assert OutputsWithin(Text1Opacity2, 0.0, 1.0) && OutputsWithin(Text2Opacity2, 0.0, 1.0);
    assert OutputsWithin(Text3Opacity2, 0.0, 1.0) && OutputsWithin(SecondTitleOpacity, 0.0, 1.0);
    assert OutputsWithin(Text1Opacity3, 0.0, 1.0) && OutputsWithin(Text2Opacity3, 0.0, 1.0);
    assert OutputsWithin(Text3Opacity3, 0.0, 1.0) && OutputsWithin(ThirdTitleOpacity, 0.0, 1.0);
    assert OutputsWithin(Curve1Opacity, 0.0, 1.0) && OutputsWithin(Curve2Opacity, 0.0, 1.0);
    assert OutputsWithin(Curve3Opacity, 0.0, 1.0);
  }

  /** Every opacity, at every scroll position, lies in [0, 1]. */
  lemma OpacityValuesWithin(p: real)
    ensures forall t :: t in Opacities ==> 0.0 <= Value(t, p) <= 1.0
  {
    OpacitiesRanged();
    forall t | t in Opacities ensures 0.0 <= Value(t, p) <= 1.0 {
      ValueWithin(t, p, 0.0, 1.0);
    }
  }

  /** Every title offset, at every scroll position, lies in [0, 20] pixels. */
  lemma OffsetValuesWithin(p: real)
    ensures forall t :: t in Offsets ==> 0.0 <= Value(t, p) <= 20.0
  {
    OffsetsWellFormed();
    forall t | t in Offsets ensures 0.0 <= Value(t, p) <= 20.0 {
      ValueWithin(t, p, 0.0, 20.0);
    }
  }

  /** Every write-in and write-out value, and the circle radius, stays in range at every scroll position. */
  lemma CurveValuesWithin(p: real)
    ensures forall t :: t in CurveProgress ==> 0.0 <= Value(t, p) <= 1.0
    ensures 0.0 <= Value(CircleRadius, p) <= 150.0
  {
    CurveProgressWellFormed();
    forall t | t in CurveProgress ensures 0.0 <= Value(t, p) <= 1.0 {
      ValueWithin(t, p, 0.0, 1.0);
    }
    ValueWithin(CircleRadius, p, 0.0, 150.0);
  }

  /**
   * Each title is hidden (clipped 100% from the right) up to its first
   * keyframe, fully shown from its last keyframe on, and its clip is a valid
   * percentage in between.
   */
  lemma TitleRevealed(t: Table, p: real)
    requires t in Reveals
    ensures 0.0 <= Value(t, p) <= 100.0
    ensures p <= t.inputs[0] ==> Value(t, p) == 100.0
    ensures p >= t.inputs[1] ==> Value(t, p) == 0.0
  {
    assert WellFormed(t) && OutputsWithin(t, 0.0, 100.0);
    ValueWithin(t, p, 0.0, 100.0);
    if p >= t.inputs[1] {
      ValueAfterLast(t, p);
    }
  }

  /**
   * Before the section starts the phone is upright at full size; from 85%
   * of the section onwards it is upright again (720 degrees) at full size.
   */
  lemma PhoneUprightAtEnds(p: real)
    ensures p <= 0.0 ==> Value(Rotate, p) == 0.0 && Value(Scale, p) == 1.0
    ensures p >= 0.85 ==> Value(Rotate, p) == 720.0 && Value(Scale, p) == 1.0
  {
    TablesWellFormed();
    if p >= 0.85 {
      ValueAfterLast(Rotate, p);
      ValueAfterLast(Scale, p);
    }
  }
}

=== FILE: waitlist_form.dfy ===
/**
 * The waitlist sign-up form: its four pieces of state (role, email, status,
 * message), the submit handler with its ordered checks, and the REST
 * endpoint the entry is posted to.
 */
module Waitlist {

  datatype Status = Idle | Submitting | Success | Error

  const TableName := "waitlist_entries"
  const RoleMissing := "Please choose a role to continue."
  const EmailMissing := "Please enter a valid email address."
  const NotConfigured := "Supabase is not configured yet."
  const Failed := "Something went wrong. Please try again."
  const Thanks := "Thanks! You are on the waitlist."

  /** The path appended to the service's base URL. */
  const RestPath := "/rest/v1/" + TableName

  /** The JSON body of a request: exactly a role and an email. */
  datatype Entry = Entry(role: string, email: string)

  /** A POST request: endpoint, the key sent in the `apikey` header, the bearer authorization, the body. */
  datatype Request = Request(endpoint: string, apiKey: string, authorization: string, entry: Entry)

  /** How the network call ends: an OK response, a non-OK response, or an exception. */
  datatype Response = Ok | NotOk | Threw

  /** What the form shows after a render: its status and message. */
  datatype View = View(status: Status, message: string)

  predicate EndsWithSlash(s: string) {
    |s| > 0 && s[|s| - 1] == '/'
  }

  /**
   * The base URL with one trailing slash removed, if it has one, followed by
   * the table's REST path. Only one slash is removed: the pattern is
   * anchored at the end and not repeated.
   */
  function Endpoint(base: string): (r: string)
    ensures |r| == |base| - (if EndsWithSlash(base) then 1 else 0) + |RestPath|
    ensures r[|r| - |RestPath|..] == RestPath
    ensures r[..|r| - |RestPath|] + (if EndsWithSlash(base) then "/" else "") == base
  {
    (if EndsWithSlash(base) then base[..|base| - 1] else base) + RestPath
  }

  /** A base URL with or without its trailing slash yields the same endpoint. */
  lemma EndpointIgnoresTrailingSlash(base: string)
    requires !EndsWithSlash(base)
    ensures Endpoint(base + "/") == Endpoint(base)
  {
    assert (base + "/")[..|base|] == base;
  }

  /** A second trailing slash is kept. */
  lemma EndpointStripsAtMostOne(base: string)
    ensures Endpoint(base + "//") == base + "/" + RestPath
  {
    assert (base + "//")[..|base| + 1] == base + "/";
  }

  /** The request the form sends for an entry. */
  function MakeRequest(base: string, key: string, role: string, email: string): Request {
    Request(Endpoint(base), key, "Bearer " + key, Entry(role, email))
  }

  class WaitlistForm {
    var role: string
    var email: string
    var status: Status
    var message: string
    /** What the form has rendered so far, one view per render. */
    var renders: seq<View>
    /** Every request sent so far. */
    var requests: seq<Request>

    constructor ()
      ensures role == "" && email == "" && status == Idle && message == ""
      ensures renders == [] && requests == []
    {
      role, email, status, message := "", "", Idle, "";
      renders, requests := [], [];
    }

    method ChooseRole(value: string)
      modifies this`role
      ensures role == value
    {
      role := value;
    }

    method TypeEmail(value: string)
      modifies this`email
      ensures email == value
    {
      email := value;
    }

    /**
     * Submit handler. The checks run in order: role, then email (only
     * emptiness), then the configuration (base URL and key; an empty string
     * stands for an unset variable). The first failing check sets status
     * Error with its message and sends nothing. Otherwise the form renders
     * Submitting with an empty message, posts the entry, and ends in Success
     * (fields cleared) or Error (fields kept) depending on the response.
     */
    method HandleSubmit(baseUrl: string, key: string, response: Response)
      modifies this
      ensures old(role) == "" ==>
        && status == Error && message == RoleMissing
        && requests == old(requests) && renders == old(renders) + [View(Error, RoleMissing)]
        && role == old(role) && email == old(email)
      ensures old(role) != "" && old(email) == "" ==>
        && status == Error && message == EmailMissing
        && requests == old(requests) && renders == old(renders) + [View(Error, EmailMissing)]
        && role == old(role) && email == old(email)
      ensures old(role) != "" && old(email) != "" && (baseUrl == "" || key == "") ==>
        && status == Error && message == NotConfigured
        && requests == old(requests) && renders == old(renders) + [View(Error, NotConfigured)]
        && role == old(role) && email == old(email)
      ensures old(role) != "" && old(email) != "" && baseUrl != "" && key != "" ==>
        && requests == old(requests) + [MakeRequest(baseUrl, key, old(role), old(email))]
        && renders == old(renders) + [View(Submitting, ""), View(status, message)]
        && (response == Ok ==> status == Success && message == Thanks && role == "" && email == "")
        && (response != Ok ==> status == Error && message == Failed && role == old(role) && email == old(email))
    {
      message := "";

      if role == "" {
        status, message := Error, RoleMissing;
        renders := renders + [View(status, message)];
        return;
      }

      if email == "" {
        status, message := Error, EmailMissing;
        renders := renders + [View(status, message)];
        return;
      }

      if baseUrl == "" || key == "" {
        status, message := Error, NotConfigured;
        renders := renders + [View(status, message)];
        return;
      }

      status := Submitting;
      renders := renders + [View(status, message)];
      requests := requests + [MakeRequest(baseUrl, key, role, email)];

      if response == Ok {
        status, message := Success, Thanks;
        role, email := "", "";
      } else {
        status, message := Error, Failed;
      }
      renders := renders + [View(status, message)];
    }
  }
}
